=== FILE: README.md ===
# Battle API authentication and authorization, modelled in Dafny

This project models the decision logic of the Battle API backend: how it
issues bearer tokens, how it resolves a token to the requesting user, how it
registers users and logs them in, and how the item endpoints enforce
ownership. The model is a sequential state machine over an immutable store.
Each request handler is a pure function of the store, the clock and its
input. It returns a `Reply`, which holds the store after the request and
either the response body or an `HttpError` (status, detail, bearer
challenge).

Modules, one per source file or library boundary:

- `Config` (config.py): the settings record, its defaults, loading, and the
  log-level derivation.
- `PasswordHash` (bcrypt calls in auth_jwt.py): an ideal symbolic hash.
  `VerifyPassword` re-hashes the candidate with the digest's own salt and
  compares, the same way `bcrypt.checkpw` does.
- `Jwt` (python-jose calls in auth_jwt.py): a symbolic signed token and its
  decoder. Decoding fails as `Malformed`, `DisallowedAlgorithm`,
  `BadSignature`, `InvalidClaim` or `Expired`.
- `Models` (models.py): `User`, `Item`, the `Store`, the table constraints
  (`Valid`) and the queries the handlers issue.
- `AuthJwt` (auth_jwt.py): token lifetime, claim construction,
  `create_access_token`, and `get_current_user` as `CurrentUser`.
- `AuthRoutes` (auth_routes.py): `Register`, `Login`, `GetMe`.
- `RoutesItems` (routes_items.py): `ListItems`, `CreateItem`, `DeleteItem`.
- `Scenario`: a whole session against a fresh database.

Time is an integer count of seconds, the JWT NumericDate. A TTL of `m`
minutes is `m * 60` seconds. The clock and the bcrypt salt are parameters.
Fresh primary keys come from a per-table counter kept in the store.

Behaviour of the code that is easy to miss, modelled as written:

- `expires_delta or timedelta(minutes=...)` treats a zero `timedelta` as
  falsy. So an explicit zero lifetime falls back to the configured minutes
  (`ExpiresIn`). Hence `exp` equals issue time + `expires_delta` only for
  a nonzero delta. Login passes the configured minutes explicitly, so its
  tokens live exactly `access_token_expire_minutes` either way
  (`LoginTokenLifetime`).
- Login does not look at `is_active`. A deactivated user still gets a token
  and is then refused with 403 when that token is used (`LoginSucceedsIff`,
  `IssuedTokenResolves`).
- Derivation cannot tell an explicit "info" from the default "info". In
  development, an explicitly set "info" also becomes "debug".

## Model

| member | source | states |
|---|---|---|
| Config.DeriveLogLevel | backend/app/config.py:24-29 | "info" in development becomes "debug"; in every other case the settings come back unchanged; only `log_level` can change; the result is never "info"-in-development again |
| Config.DeriveLogLevelIdempotent | backend/app/config.py:24-29 | running the validator twice gives the same settings as running it once |
| Config.ExplicitLevelKept | backend/app/config.py:27-29 | an explicit level other than "info" is never overridden |
| Config.Load | backend/app/config.py:7-29 | settings load exactly when `database_url` and `secret_key` are both given, and the error names each missing one; every other field is its input or its default; the effective level (given or default "info") becomes "debug" when it is "info" in development, stays "info" when it is "info" elsewhere, and is kept when it is anything else |
| Config.DefaultsKeepInfo | backend/app/config.py:10-27 | with only the required fields set: CORS origin localhost:3000, HS256, 30 minutes, empty GitHub credentials, "production", and the level stays "info" |
| PasswordHash.HashPassword | backend/app/auth_jwt.py:20-29 | a digest keeps the salt it was made with and verifies exactly its own password and no other |
| PasswordHash.VerifyPassword | backend/app/auth_jwt.py:20-24 | a digest accepts a candidate password if and only if it is the password the digest was made from, whatever its salt |
| PasswordHash.SaltedDigestsDiffer | backend/app/auth_jwt.py:27-29 | two salts give two different digests of one password, and both digests verify it |
| Jwt.Decode | backend/app/auth_jwt.py:55-57 | decoded claims are well typed and unexpired at `now`; the token was signed with the configured key under an allowed algorithm |
| Jwt.DecodeEncode | backend/app/auth_jwt.py:41-57 | encoding and then decoding with the same key and algorithm returns the claims while they are unexpired |
| Jwt.DecodeAfterExpiry | backend/app/auth_jwt.py:54-63 | at or after `exp`, the token is rejected as `Expired` |
| Jwt.DecodeWrongKey | backend/app/auth_jwt.py:54-63 | a token signed with a different key is rejected as `BadSignature` |
| Models.NewUser | backend/app/models.py:7-15 | `is_active` is true unless it is given; the other fields are the given ones |
| Models.EmptyStoreValid | backend/app/models.py:7-25 | a fresh database satisfies every table constraint (unique keys, emails and usernames; existing item owners) |
| Models.FindUserByUsername | backend/app/auth_jwt.py:65-67 | a hit is a stored user with that username; a miss means no stored user has it |
| Models.FindUserByEmailOrUsername | backend/app/auth_routes.py:25-29 | a hit shares the email or the username; a miss means neither is taken |
| Models.FindItem | backend/app/routes_items.py:47 | a hit is a stored item with that key; a miss means no item has that key |
| Models.ItemsOwnedBy | backend/app/routes_items.py:20-22 | an item is listed if and only if it is stored with that owner |
| Models.RemoveItem | backend/app/routes_items.py:58-59 | an item remains if and only if it was stored and its key differs from the deleted one |
| Models.FindUniqueUsername | backend/app/models.py:12 | with usernames unique, looking up a stored user's username returns that user |
| Models.RemoveKeepsUniqueIds | backend/app/models.py:21 | deleting a row keeps the item primary keys unique |
| Models.RemovePresentItem | backend/app/routes_items.py:58-59 | with unique item keys, deleting a present key removes exactly one row |
| Models.OwnedByAppend | backend/app/routes_items.py:20-37 | appending an item extends its owner's listing at the end and leaves every other owner's listing unchanged |
| Models.OwnedByRemoveCommute | backend/app/routes_items.py:20-59 | filtering by owner after a delete gives the owner's earlier listing minus the deleted key, in the same order |
| AuthJwt.ExpiresIn | backend/app/auth_jwt.py:37-39 | a nonzero explicit delta is the lifetime; no delta or a zero delta gives the configured minutes in seconds |
| AuthJwt.IssuedClaims | backend/app/auth_jwt.py:36-40 | the result holds the caller's claims unchanged plus `exp` = the expiry, and it overwrites any `exp` the caller gave |
| AuthJwt.CreateAccessToken | backend/app/auth_jwt.py:32-41 | for well-typed claims, the token decodes at every instant before now + lifetime to the caller's claims plus that `exp`, and is `Expired` at every instant from then on |
| AuthJwt.Subject | backend/app/auth_jwt.py:58-60 | a subject is found if and only if the claims carry a string `sub`, and it is that string |
| AuthJwt.TokenSubject | backend/app/auth_jwt.py:54-63 | a token that fails to decode, or decodes without `sub`, asserts no subject; a token that decodes with `sub` asserts exactly that `sub` |
| AuthJwt.CreateAccessTokenRoundTrip | backend/app/auth_jwt.py:32-41 | before now + lifetime the issued token decodes to the caller's claims plus that `exp`; from then on it is `Expired` |
| AuthJwt.CurrentUser | backend/app/auth_jwt.py:44-74 | decode failure, missing `sub` and unknown user all give the same 401, and nothing else does: once `sub` names a stored user the outcome is success or 403; 403 only when `sub` names an inactive user; success is an active stored user named by `sub` (which user, in a valid store, is `CurrentUserDecision`) |
| AuthJwt.CurrentUserDecision | backend/app/auth_jwt.py:65-74 | in a valid store: success for user u if and only if `sub` is u's name and u is active; 403 when `sub` names an inactive user |
| AuthJwt.IssuedTokenResolves | backend/app/auth_jwt.py:32-74 | a token issued for a stored user resolves to that user before expiry, or to 403 if the user is inactive |
| AuthJwt.IssuedTokenExpires | backend/app/auth_jwt.py:54-63 | after its expiry an issued token gets the 401 |
| AuthRoutes.Register | backend/app/auth_routes.py:22-44 | 400 if and only if the email or username is taken, with the store unchanged; otherwise exactly one active user is appended, with the given email and username and a digest that verifies the password; items are untouched |
| AuthRoutes.AppendFreshUser | backend/app/models.py:10-12 | appending a user with a new key, email and username keeps the user table's unique constraints |
| AuthRoutes.RegisterPreservesValid | backend/app/auth_routes.py:25-44 | register keeps emails unique, usernames unique, keys unique and item owners existing |
| AuthRoutes.SecondRegisterConflicts | backend/app/auth_routes.py:25-34 | a second registration that reuses the email or the username gets 400 and changes nothing |
| AuthRoutes.Login | backend/app/auth_routes.py:47-67 | the store is never changed; every failure is the one 401; an unknown username fails; success needs a stored user with that name whose digest verifies the password, and it yields a bearer token for `sub` = username with the configured lifetime |
| AuthRoutes.LoginSameReply | backend/app/auth_routes.py:53-61 | an unknown username and a wrong password for a known user get the identical reply value |
| AuthRoutes.LoginSucceedsIff | backend/app/auth_routes.py:53-61 | in a valid store, login succeeds if and only if the password verifies against that user's digest, whether or not the user is active |
| AuthRoutes.LoginTokenLifetime | backend/app/auth_routes.py:63-67 | the login token asserts the username until `access_token_expire_minutes` after issue, and is `Expired` from then on |
| AuthRoutes.GetMe | backend/app/auth_routes.py:70-73 | returns exactly what identity resolution returns, 401/403 included, and changes nothing |
| AuthRoutes.RegisterThenLogin | backend/app/auth_routes.py:22-73 | after a successful register, logging in with the same password succeeds, and the token resolves to the registered user until it expires |
| RoutesItems.ListItems | backend/app/routes_items.py:14-23 | a resolution failure is passed on; otherwise the listing holds exactly the stored items owned by the caller; nothing changes |
| RoutesItems.CreateItem | backend/app/routes_items.py:26-37 | a resolution failure is passed on with the store unchanged; otherwise one item is appended with the given title and description, owned by the caller, under a new key; users are untouched |
| RoutesItems.DeleteItem | backend/app/routes_items.py:40-59 | a resolution failure is passed on; a missing key gives 404 whoever owns what; an existing item is deleted if and only if the caller owns it, else 403; any failure leaves the store unchanged; success removes exactly the rows with that key |
| RoutesItems.CreateItemPreservesValid | backend/app/routes_items.py:33-37 | create keeps item keys unique and every owner an existing user |
| RoutesItems.DeleteItemPreservesValid | backend/app/routes_items.py:53-59 | delete keeps the store valid, and a successful delete removes exactly one row |
| RoutesItems.ListingsAreDisjoint | backend/app/routes_items.py:20-23 | two different callers' listings share no item |
| RoutesItems.CreateThenList | backend/app/routes_items.py:14-37 | after a create, the creator's listing is the old one plus the new item at the end; other callers' listings are unchanged |
| RoutesItems.DeleteThenList | backend/app/routes_items.py:14-59 | after a successful delete, every caller's listing is the old one minus the deleted item, in order; in a valid store other users' listings are unchanged |
| Scenario.AliceSession | backend/app/auth_routes.py:22-73 | register alice; the login token resolves to alice at 29 minutes and gets 401 at 31 minutes; a wrong password gets 401; reusing the email gets 400 |

## Left out

- bcrypt internals: salting, cost factor, constant-time comparison and the 72-byte password limit. The ideal hash tells every pair of passwords apart. Malformed stored digests, on which `bcrypt.checkpw` raises, are not modelled.
- JWT encoding, HS256 signing and base64url. A token is a symbolic term. The decoder checks only the algorithm allow-list, the key, the types of `sub` and `exp`, and expiry. `nbf`, `iat`, `aud` and `iss` are not modelled.
- Jwt.Decode: follows section 4.1.4 of RFC 7519 and rejects when `now >= exp`. python-jose (zero leeway) rejects only when `exp < now`, so the running program still accepts a token in the second `now == exp`, which the model rejects. The library is not part of this model; the session lemma probes expiry one minute later, where both agree.
- AuthRoutes.Login: the clock and token lifetimes are unbounded integers. In the program, `datetime.utcnow() + timedelta(...)` raises `OverflowError` (a 500) once the expiry passes year 9999, for example with `access_token_expire_minutes` of about 4.2e9 or more. The model lets such logins succeed, and `LoginSucceedsIff`, `CreateAccessToken` and `ExpiresIn` do not model that range limit.
- AuthRoutes.LoginSameReply: response timing is not modelled. The check at auth_routes.py:56 short-circuits, so for an unknown username bcrypt never runs while a wrong password pays the full hash cost; the two cases can be told apart by timing, and the lemma states only that the reply values are equal.
- Sub-second clock precision: `datetime.utcnow()` is taken as whole seconds.
- SQL sessions, the engine, `db.py`, commit/refresh I/O: the store is a pair of sequences, and primary keys come from counters.
- Primary keys follow a sequence-backed database: a key is never handed out twice. On SQLite without AUTOINCREMENT, a deleted highest item id can be reused; that reuse is not modelled.
- The race between register's duplicate pre-check and the commit. Requests are sequential, so the database unique constraint is never the deciding check.
- FastAPI routing, dependency injection, request validation (422), CORS and logging setup in main.py and routes_public.py. The header-prefix stripping of the bearer scheme is also left out.
- `response_model` projections in schemas.py. The handlers return the full `User` and `Item` rows. The `UserRead` filter that hides `hashed_password` is not modelled. Only the `bearer` token type is reused.
- `EmailStr` validation and normalisation of the register body.
- Reading settings from the environment and `.env`, case-insensitive names, string-to-int parsing, and `lru_cache`. `SettingsInput` stands for the parsed values.
- github_oauth.py: an unimplemented stub. The frontend is UI and I/O.
- `created_at` columns hold the clock parameter, not a `datetime`.
- `Item.description` defaulting to none is expressed by the `Option` type of the `ItemCreate` body and has no member of its own.

=== FILE: auth_jwt.dfy ===
/** Token issue and identity resolution (backend/app/auth_jwt.py). */
module AuthJwt {
  import opened Wrappers
  import opened Http
  import opened Config
  import opened Jwt
  import opened Models

  /** The 401 raised for every credential problem; it carries the bearer challenge. */
  const CredentialsException := HttpError(StatusUnauthorized, "Could not validate credentials", true)

  /** The 403 raised for a valid token whose user is deactivated. */
  const InactiveUser := HttpError(StatusForbidden, "Inactive user", false)

  /** The token lifetime in seconds. Python's `expires_delta or default`
      treats a zero `timedelta` as falsy, so an explicit zero (like an absent
      delta) falls back to the configured minutes. */
  function ExpiresIn(settings: Settings, expiresDelta: Option<int>): (seconds: int)
    ensures expiresDelta.Some? && expiresDelta.value != 0 ==> seconds == expiresDelta.value
    ensures expiresDelta.None? ==> seconds == settings.accessTokenExpireMinutes * 60
    ensures expiresDelta == Some(0) ==> seconds == settings.accessTokenExpireMinutes * 60
  {
    match expiresDelta
    case Some(d) => if d != 0 then d else settings.accessTokenExpireMinutes * 60
    case None => settings.accessTokenExpireMinutes * 60
  }

  /** The claim set `create_access_token` signs: a copy of `data` with `exp`
      set to the expiry instant, overwriting any `exp` already in `data`. */
  function IssuedClaims(data: Claims, expire: int): (c: Claims)
    ensures ExpirationClaim in c && c[ExpirationClaim] == Num(expire)
    ensures forall k :: k != ExpirationClaim ==> (k in c <==> k in data)
    ensures forall k :: k in data && k != ExpirationClaim ==> c[k] == data[k]
    ensures WellTyped(data) ==> WellTyped(c)
  {
    data[ExpirationClaim := Num(expire)]
  }

  /** `create_access_token(data, expires_delta)` at clock `now`. */
  function CreateAccessToken(settings: Settings, data: Claims, expiresDelta: Option<int>, now: int): (t: Token)
    ensures WellTyped(data) ==>
              forall at :: at < now + ExpiresIn(settings, expiresDelta) ==>
                DecodeWith(settings, t, at) == Ok(IssuedClaims(data, now + ExpiresIn(settings, expiresDelta)))
    ensures WellTyped(data) ==>
              forall at :: at >= now + ExpiresIn(settings, expiresDelta) ==> DecodeWith(settings, t, at) == Err(Expired)
  {
    Encode(IssuedClaims(data, now + ExpiresIn(settings, expiresDelta)), settings.secretKey, settings.jwtAlgorithm)
  }

  /** An issued token decodes, under the same settings and before its
      expiry, to exactly the caller's claims plus `exp` = issue time +
      lifetime; from its expiry on it is rejected as expired. */
  lemma CreateAccessTokenRoundTrip(settings: Settings, data: Claims, expiresDelta: Option<int>, issuedAt: int, now: int)
    requires WellTyped(data)
    ensures var r := DecodeWith(settings, CreateAccessToken(settings, data, expiresDelta, issuedAt), now);
            && (now < issuedAt + ExpiresIn(settings, expiresDelta) ==>
                  && r.Ok?
                  && r.value[ExpirationClaim] == Num(issuedAt + ExpiresIn(settings, expiresDelta))
                  && (forall k :: k != ExpirationClaim ==> (k in r.value <==> k in data))
                  && (forall k :: k in data && k != ExpirationClaim ==> r.value[k] == data[k]))
            && (now >= issuedAt + ExpiresIn(settings, expiresDelta) ==> r == Err(Expired))
  {
  }

  /** The decoder as `get_current_user` configures it. */
  function DecodeWith(settings: Settings, token: Token, now: int): Result<Claims, DecodeError> {
    Decode(token, settings.secretKey, [settings.jwtAlgorithm], now)
  }

  /** `payload.get("sub")`: the subject, if the decoded claims carry one. */
  function Subject(claims: Claims): (r: Option<string>)
    ensures r.Some? <==> SubjectClaim in claims && claims[SubjectClaim].Str?
    ensures r.Some? ==> claims[SubjectClaim] == Str(r.value)
  {
    if SubjectClaim in claims && claims[SubjectClaim].Str? then Some(claims[SubjectClaim].s) else None
  }

  /** The username a token asserts at `now`: it must decode and carry `sub`. */
  function TokenSubject(settings: Settings, token: Token, now: int): (r: Option<string>)
    ensures DecodeWith(settings, token, now).Err? ==> r.None?
    ensures r.Some? ==> DecodeWith(settings, token, now).Ok?
                        && SubjectClaim in DecodeWith(settings, token, now).value
                        && DecodeWith(settings, token, now).value[SubjectClaim] == Str(r.value)
    ensures DecodeWith(settings, token, now).Ok? && SubjectClaim !in DecodeWith(settings, token, now).value ==> r.None?
    ensures DecodeWith(settings, token, now).Ok? && SubjectClaim in DecodeWith(settings, token, now).value
            ==> r == Some(DecodeWith(settings, token, now).value[SubjectClaim].s)
  {
    match DecodeWith(settings, token, now)
    case Err(_) => None
    case Ok(claims) => Subject(claims)
  }

  /** `get_current_user`: decode, read `sub`, look the user up, check it is active. */
  function CurrentUser(settings: Settings, store: Store, token: Token, now: int): (r: Result<User, HttpError>)
    ensures DecodeWith(settings, token, now).Err? ==> r == Err(CredentialsException)
    ensures TokenSubject(settings, token, now).None? ==> r == Err(CredentialsException)
    ensures r.Err? ==> r.error == CredentialsException || r.error == InactiveUser
    ensures r.Ok? ==> TokenSubject(settings, token, now) == Some(r.value.username)
    ensures r.Ok? ==> r.value in store.users && r.value.isActive
    ensures r == Err(InactiveUser) ==>
              exists u :: u in store.users && Some(u.username) == TokenSubject(settings, token, now) && !u.isActive
    ensures TokenSubject(settings, token, now).Some? &&
            (forall u :: u in store.users ==> Some(u.username) != TokenSubject(settings, token, now))
            ==> r == Err(CredentialsException)
    ensures (exists u :: u in store.users && Some(u.username) == TokenSubject(settings, token, now))
            ==> r.Ok? || r == Err(InactiveUser)
  {
    match TokenSubject(settings, token, now)
    case None => Err(CredentialsException)
    case Some(username) =>
      match FindUserByUsername(store.users, username)
      case None => Err(CredentialsException)
      case Some(user) => if !user.isActive then Err(InactiveUser) else Ok(user)
  }

  /** In a valid store the outcome is decided by the asserted subject alone:
      success exactly for an active user with that username, 403 exactly for
      an inactive one, and the same 401 otherwise. */
  lemma CurrentUserDecision(settings: Settings, store: Store, token: Token, now: int, u: User)
    requires Valid(store)
    requires u in store.users
    ensures CurrentUser(settings, store, token, now) == Ok(u)
            <==> TokenSubject(settings, token, now) == Some(u.username) && u.isActive
    ensures CurrentUser(settings, store, token, now) == Err(InactiveUser)
            <== TokenSubject(settings, token, now) == Some(u.username) && !u.isActive
  {
  }

  /** A token issued for `sub = username` resolves, at any instant before its
      expiry, to the user of that name when active and to 403 when inactive. */
  lemma IssuedTokenResolves(settings: Settings, store: Store, u: User, expiresDelta: Option<int>, issuedAt: int, now: int)
    requires Valid(store)
    requires u in store.users
    requires now < issuedAt + ExpiresIn(settings, expiresDelta)
    ensures var t := CreateAccessToken(settings, map[SubjectClaim := Str(u.username)], expiresDelta, issuedAt);
            && TokenSubject(settings, t, now) == Some(u.username)
            && CurrentUser(settings, store, t, now) == (if u.isActive then Ok(u) else Err(InactiveUser))
  {
  }

  /** The same token, presented at or after its expiry, gets the 401. */
  lemma IssuedTokenExpires(settings: Settings, store: Store, data: Claims, expiresDelta: Option<int>, issuedAt: int, now: int)
    requires WellTyped(data)
    requires now >= issuedAt + ExpiresIn(settings, expiresDelta)
    ensures CurrentUser(settings, store, CreateAccessToken(settings, data, expiresDelta, issuedAt), now)
            == Err(CredentialsException)
  {
  }
}

=== FILE: auth_routes.dfy ===
/** The register, login and "me" use-cases (backend/app/auth_routes.py). */
module AuthRoutes {
  import opened Wrappers
  import opened Http
  import opened Config
  import opened PasswordHash
  import opened Jwt
  import opened Models
  import opened AuthJwt

  const AlreadyRegistered := HttpError(StatusBadRequest, "Email or username already registered", false)

  /** The single 401 login gives, whichever factor was wrong. */
  const IncorrectCredentials := HttpError(StatusUnauthorized, "Incorrect username or password", true)

  const BearerTokenType := "bearer"

  datatype UserCreate = UserCreate(email: string, username: string, password: string)

  datatype AccessToken = AccessToken(accessToken: Token, tokenType: string)

  predicate Taken(users: seq<User>, email: string, username: string) {
    exists u :: u in users && (u.email == email || u.username == username)
  }

  /** `register`: refuse a taken email or username, otherwise insert an
      active user under the next key with a salted hash of the password. */
  function Register(store: Store, input: UserCreate, salt: Salt, now: int): (r: Reply<Store, User>)
    ensures r.result.Err? <==> Taken(store.users, input.email, input.username)
    ensures r.result.Err? ==> r.result.error == AlreadyRegistered && r.state == store
    ensures r.result.Ok? ==> r.state.users == store.users + [r.result.value]
    ensures r.result.Ok? ==> r.state.items == store.items && r.state.nextItemId == store.nextItemId
    ensures r.result.Ok? ==> r.result.value.email == input.email && r.result.value.username == input.username
    ensures r.result.Ok? ==> r.result.value.isActive && r.result.value.createdAt == now
    ensures r.result.Ok? ==> VerifyPassword(input.password, r.result.value.hashedPassword)
    ensures r.result.Ok? ==> r.result.value.hashedPassword.salt == salt
  {
    match FindUserByEmailOrUsername(store.users, input.email, input.username)
    case Some(_) => Reply(store, Err(AlreadyRegistered))
    case None =>
      var user := NewUser(store.nextUserId, input.email, input.username,
                          HashPassword(input.password, salt), None, now);
      Reply(store.(users := store.users + [user], nextUserId := store.nextUserId + 1), Ok(user))
  }

  /** Appending a user whose email, username and key are all new keeps the
      user table's constraints. */
  lemma AppendFreshUser(users: seq<User>, user: User)
    requires UniqueUserIds(users) && UniqueEmails(users) && UniqueUsernames(users)
    requires forall u :: u in users ==> u.id != user.id && u.email != user.email && u.username != user.username
    ensures UniqueUserIds(users + [user]) && UniqueEmails(users + [user]) && UniqueUsernames(users + [user])
  {
  }

  /** Register keeps every table constraint, in particular the uniqueness of
      emails and of usernames. */
  lemma RegisterPreservesValid(store: Store, input: UserCreate, salt: Salt, now: int)
    requires Valid(store)
    ensures Valid(Register(store, input, salt, now).state)
  {
  }

  /** Registering twice with the same email, or with the same username, fails
      the second time. */
  lemma SecondRegisterConflicts(store: Store, first: UserCreate, second: UserCreate, s1: Salt, s2: Salt, t1: int, t2: int)
    requires Register(store, first, s1, t1).result.Ok?
    requires second.email == first.email || second.username == first.username
    ensures Register(Register(store, first, s1, t1).state, second, s2, t2) == Reply(Register(store, first, s1, t1).state, Err(AlreadyRegistered))
  {
  }

  /** `login`: one 401 for an unknown username or a wrong password, else a
      bearer token for the stored username with the configured lifetime. */
  function Login(settings: Settings, store: Store, username: string, password: string, now: int): (r: Reply<Store, AccessToken>)
    ensures r.state == store
    ensures r.result.Err? ==> r.result.error == IncorrectCredentials
    ensures FindUserByUsername(store.users, username).None? ==> r.result == Err(IncorrectCredentials)
    ensures r.result.Ok? ==> exists u :: u in store.users && u.username == username && VerifyPassword(password, u.hashedPassword)
    ensures r.result.Ok? ==> r.result.value.tokenType == BearerTokenType
    ensures r.result.Ok? ==>
              r.result.value.accessToken == CreateAccessToken(settings, map[SubjectClaim := Str(username)], None, now)
  {
    var found := FindUserByUsername(store.users, username);
    if found.None? || !VerifyPassword(password, found.value.hashedPassword) then
      Reply(store, Err(IncorrectCredentials))
    else
      Reply(store, Ok(AccessToken(
        CreateAccessToken(settings, map[SubjectClaim := Str(found.value.username)],
                          Some(settings.accessTokenExpireMinutes * 60), now),
        BearerTokenType)))
  }

  /** An unknown username and a known username with a wrong password get
      the identical reply value (response timing is outside the model). */
  lemma LoginSameReply(settings: Settings, store: Store, unknown: string, u: User, wrong: string, p: string, now: int)
    requires Valid(store)
    requires forall v :: v in store.users ==> v.username != unknown
    requires u in store.users && !VerifyPassword(wrong, u.hashedPassword)
    ensures Login(settings, store, unknown, p, now) == Login(settings, store, u.username, wrong, now)
    ensures Login(settings, store, unknown, p, now) == Reply(store, Err(IncorrectCredentials))
  {
  }

  /** In a valid store login succeeds exactly when the password matches the
      user of that name; activity is not consulted. */
  lemma LoginSucceedsIff(settings: Settings, store: Store, u: User, password: string, now: int)
    requires Valid(store)
    requires u in store.users
    ensures Login(settings, store, u.username, password, now).result.Ok? <==> VerifyPassword(password, u.hashedPassword)
  {
  }

  /** The token login issues asserts `sub = username` and expires exactly
      `access_token_expire_minutes` after issue. */
  lemma LoginTokenLifetime(settings: Settings, store: Store, username: string, password: string, issuedAt: int, now: int)
    requires Login(settings, store, username, password, issuedAt).result.Ok?
    ensures var t := Login(settings, store, username, password, issuedAt).result.value.accessToken;
            && (now < issuedAt + settings.accessTokenExpireMinutes * 60 ==> TokenSubject(settings, t, now) == Some(username))
            && (now >= issuedAt + settings.accessTokenExpireMinutes * 60 ==> DecodeWith(settings, t, now) == Err(Expired))
  {
  }

  /** `get_me`: the resolved principal, or the resolver's 401/403. */
  function GetMe(settings: Settings, store: Store, token: Token, now: int): (r: Reply<Store, User>)
    ensures r.state == store
    ensures r.result == CurrentUser(settings, store, token, now)
  {
    Reply(store, CurrentUser(settings, store, token, now))
  }

  /** Register, then log in with the same password: the login succeeds and
      its token resolves to the new, active user until it expires. */
  lemma RegisterThenLogin(settings: Settings, store: Store, input: UserCreate, salt: Salt, t0: int, t1: int, t2: int)
    requires Valid(store)
    requires !Taken(store.users, input.email, input.username)
    requires t1 <= t2 < t1 + settings.accessTokenExpireMinutes * 60
    ensures var reg := Register(store, input, salt, t0);
            var login := Login(settings, reg.state, input.username, input.password, t1);
            && login.result.Ok?
            && GetMe(settings, reg.state, login.result.value.accessToken, t2).result == reg.result
  {
  }
}

=== FILE: config.dfy ===
/** Application settings (backend/app/config.py): defaults for every optional
    field and the post-validation rewrite of the log level. */
module Config {
  import opened Wrappers

  const DefaultCorsOrigins := "http://localhost:3000"
  const DefaultJwtAlgorithm := "HS256"
  const DefaultAccessTokenExpireMinutes := 30
  const DefaultGithubClientId := ""
  const DefaultGithubClientSecret := ""
  const DefaultAppEnv := "production"
  const DefaultLogLevel := "info"

  datatype Settings = Settings(
    databaseUrl: string,
    secretKey: string,
    corsOrigins: string,
    jwtAlgorithm: string,
    accessTokenExpireMinutes: int,
    githubClientId: string,
    githubClientSecret: string,
    appEnv: string,
    logLevel: string)

  /** The values the environment supplies; `None` means the variable is unset. */
  datatype SettingsInput = SettingsInput(
    databaseUrl: Option<string>,
    secretKey: Option<string>,
    corsOrigins: Option<string>,
    jwtAlgorithm: Option<string>,
    accessTokenExpireMinutes: Option<int>,
    githubClientId: Option<string>,
    githubClientSecret: Option<string>,
    appEnv: Option<string>,
    logLevel: Option<string>)

  /** A validation failure naming every required field that was missing. */
  datatype ConfigError = MissingFields(names: seq<string>)

  /** An environment that sets only the two required fields. */
  function RequiredOnly(databaseUrl: string, secretKey: string): SettingsInput {
    SettingsInput(Some(databaseUrl), Some(secretKey), None, None, None, None, None, None, None)
  }

  /** The "after" validator: a development environment that kept the
      default level "info" is switched to "debug". */
  function DeriveLogLevel(s: Settings): (r: Settings)
    ensures s.logLevel == "info" && s.appEnv == "development" ==> r.logLevel == "debug"
    ensures !(s.logLevel == "info" && s.appEnv == "development") ==> r == s
    ensures r.(logLevel := s.logLevel) == s
    ensures !(r.logLevel == "info" && r.appEnv == "development")
  {
    if s.logLevel == "info" && s.appEnv == "development" then s.(logLevel := "debug") else s
  }

  /** Applying the validator a second time changes nothing. */
  lemma DeriveLogLevelIdempotent(s: Settings)
    ensures DeriveLogLevel(DeriveLogLevel(s)) == DeriveLogLevel(s)
  {
  }

  /** An explicitly configured level other than "info" survives derivation. */
  lemma ExplicitLevelKept(s: Settings)
    requires s.logLevel != "info"
    ensures DeriveLogLevel(s).logLevel == s.logLevel
  {
  }

  function MissingRequired(input: SettingsInput): seq<string> {
    (if input.databaseUrl.None? then ["database_url"] else [])
    + (if input.secretKey.None? then ["secret_key"] else [])
  }

  /** Builds the settings object: required fields must be present, every
      other field takes its default, then the log level is derived. */
  function Load(input: SettingsInput): (r: Result<Settings, ConfigError>)
    ensures r.Ok? <==> input.databaseUrl.Some? && input.secretKey.Some?
    ensures r.Err? ==> ("database_url" in r.error.names <==> input.databaseUrl.None?)
    ensures r.Err? ==> ("secret_key" in r.error.names <==> input.secretKey.None?)
    ensures r.Ok? ==> r.value.databaseUrl == input.databaseUrl.value
    ensures r.Ok? ==> r.value.secretKey == input.secretKey.value
    ensures r.Ok? ==> r.value.corsOrigins == input.corsOrigins.GetOr(DefaultCorsOrigins)
    ensures r.Ok? ==> r.value.jwtAlgorithm == input.jwtAlgorithm.GetOr(DefaultJwtAlgorithm)
    ensures r.Ok? ==> r.value.accessTokenExpireMinutes == input.accessTokenExpireMinutes.GetOr(DefaultAccessTokenExpireMinutes)
    ensures r.Ok? ==> r.value.githubClientId == input.githubClientId.GetOr(DefaultGithubClientId)
    ensures r.Ok? ==> r.value.githubClientSecret == input.githubClientSecret.GetOr(DefaultGithubClientSecret)
    ensures r.Ok? ==> r.value.appEnv == input.appEnv.GetOr(DefaultAppEnv)
    ensures r.Ok? && input.logLevel.Some? && input.logLevel.value != "info" ==> r.value.logLevel == input.logLevel.value
    ensures r.Ok? && input.logLevel.GetOr(DefaultLogLevel) == "info" && r.value.appEnv == "development" ==> r.value.logLevel == "debug"
    ensures r.Ok? && input.logLevel.GetOr(DefaultLogLevel) == "info" && r.value.appEnv != "development" ==> r.value.logLevel == "info"
  {
    if input.databaseUrl.None? || input.secretKey.None? then
      Err(MissingFields(MissingRequired(input)))
    else
      Ok(DeriveLogLevel(Settings(
        input.databaseUrl.value,
        input.secretKey.value,
        input.corsOrigins.GetOr(DefaultCorsOrigins),
        input.jwtAlgorithm.GetOr(DefaultJwtAlgorithm),
        input.accessTokenExpireMinutes.GetOr(DefaultAccessTokenExpireMinutes),
        input.githubClientId.GetOr(DefaultGithubClientId),
        input.githubClientSecret.GetOr(DefaultGithubClientSecret),
        input.appEnv.GetOr(DefaultAppEnv),
        input.logLevel.GetOr(DefaultLogLevel))))
  }

  /** With only the required fields set, every default holds and the derived
      level stays "info", because the default environment is "production". */
  lemma DefaultsKeepInfo(databaseUrl: string, secretKey: string)
    ensures Load(RequiredOnly(databaseUrl, secretKey)).Ok?
    ensures Load(RequiredOnly(databaseUrl, secretKey)).value
         == Settings(databaseUrl, secretKey, "http://localhost:3000", "HS256", 30, "", "", "production", "info")
  {
  }
}

=== FILE: http.dfy ===
/** The transport-level outcome of a request handler. */
module Http {
  import opened Wrappers

  const StatusBadRequest := 400
  const StatusUnauthorized := 401
  const StatusForbidden := 403
  const StatusNotFound := 404

  /** An `HTTPException`: a status code, a detail message, and whether the
      response carries the `WWW-Authenticate: Bearer` challenge header. */
  datatype HttpError = HttpError(status: int, detail: string, bearerChallenge: bool)

  /** What a handler leaves behind: the store after the request (handlers are
      sequential and commit at most once) and the response or the error. */
  datatype Reply<S, T> = Reply(state: S, result: Result<T, HttpError>)
}

=== FILE: jwt.dfy ===
/** The JSON Web Token codec (the `python-jose` calls), as a symbolic model.

    A token either is a signed compact JWS carrying its header algorithm, its
    claim set and the key it was signed with, or is any other string. Only a
    holder of the key can produce a token that verifies under it. */
module Jwt {
  import opened Wrappers

  /** A JSON claim value, reduced to the two shapes the core uses. */
  datatype ClaimValue = Str(s: string) | Num(n: int)

  type Claims = map<string, ClaimValue>

  const SubjectClaim := "sub"
  const ExpirationClaim := "exp"

  datatype Token =
    | Jws(alg: string, claims: Claims, signingKey: string)
    | Opaque(text: string)

  /** Every failure `jwt.decode` reports; each is a `JWTError`. */
  datatype DecodeError = Malformed | DisallowedAlgorithm | BadSignature | InvalidClaim | Expired

  /** The registered claims the decoder type-checks: `sub` must be a string
      and `exp` a NumericDate (section 4.1 of RFC 7519). */
  predicate WellTyped(c: Claims) {
    && (SubjectClaim in c ==> c[SubjectClaim].Str?)
    && (ExpirationClaim in c ==> c[ExpirationClaim].Num?)
  }

  /** A token whose `exp` is present is acceptable strictly before that
      instant (section 4.1.4 of RFC 7519); one without `exp` never expires. */
  predicate Unexpired(c: Claims, now: int)
    requires WellTyped(c)
  {
    ExpirationClaim in c ==> now < c[ExpirationClaim].n
  }

  /** `jwt.encode`: the symbolic constructor of the codec abstraction. It
      signs the claim set with the key under the algorithm; its meaning is
      fixed by `DecodeEncode` and `DecodeWrongKey`. */
  function Encode(claims: Claims, key: string, alg: string): Token {
    Jws(alg, claims, key)
  }

  /** `jwt.decode` with an allow-list of algorithms. The order of the checks
      (structure, algorithm, signature, claim types, expiry) is the model's
      own; it only decides which `DecodeError` is reported, and every one of
      them becomes the same 401. */
  function Decode(token: Token, key: string, algorithms: seq<string>, now: int): (r: Result<Claims, DecodeError>)
    ensures r.Ok? ==> WellTyped(r.value) && Unexpired(r.value, now)
    ensures r.Ok? ==> token.Jws? && token.alg in algorithms && token == Encode(r.value, key, token.alg)
  {
    match token
    case Opaque(_) => Err(Malformed)
    case Jws(alg, claims, signingKey) =>
      if alg !in algorithms then Err(DisallowedAlgorithm)
      else if signingKey != key then Err(BadSignature)
      else if !WellTyped(claims) then Err(InvalidClaim)
      else if !Unexpired(claims, now) then Err(Expired)
      else Ok(claims)
  }

  /** Encoding then decoding with the same key and algorithm gives the claim
      set back while it is unexpired. */
  lemma DecodeEncode(claims: Claims, key: string, alg: string, now: int)
    requires WellTyped(claims) && Unexpired(claims, now)
    ensures Decode(Encode(claims, key, alg), key, [alg], now) == Ok(claims)
  {
  }

  /** The same token, decoded at or after its `exp`, is rejected as expired. */
  lemma DecodeAfterExpiry(claims: Claims, key: string, alg: string, now: int)
    requires WellTyped(claims) && ExpirationClaim in claims
    requires now >= claims[ExpirationClaim].n
    ensures Decode(Encode(claims, key, alg), key, [alg], now) == Err(Expired)
  {
  }

  /** A token signed with another key is rejected as tampered. */
  lemma DecodeWrongKey(claims: Claims, signedWith: string, key: string, alg: string, now: int)
    requires signedWith != key
    ensures Decode(Encode(claims, signedWith, alg), key, [alg], now) == Err(BadSignature)
  {
  }
}

=== FILE: models.dfy ===
/** The two tables (backend/app/models.py) and the store that holds them.

    The database is a pair of sequences in insertion order plus the next
    primary key of each table; `Valid` gathers the table constraints: unique
    ids, unique emails, unique usernames, and an existing owner per item. */
module Models {
  import opened Wrappers
  import opened PasswordHash

  datatype User = User(
    id: int,
    email: string,
    username: string,
    hashedPassword: Digest,
    isActive: bool,
    createdAt: int)

  datatype Item = Item(
    id: int,
    title: string,
    description: Option<string>,
    ownerId: int,
    createdAt: int)

  datatype Store = Store(users: seq<User>, items: seq<Item>, nextUserId: int, nextItemId: int)

  /** A fresh database: both tables empty, both keys starting at 1. */
  const EmptyStore := Store([], [], 1, 1)

  /** The `User(...)` constructor: `is_active` is true unless given. */
  function NewUser(id: int, email: string, username: string, hashedPassword: Digest,
                   isActive: Option<bool>, createdAt: int): (u: User)
    ensures isActive.None? ==> u.isActive
    ensures isActive.Some? ==> u.isActive == isActive.value
    ensures u.id == id && u.email == email && u.username == username
    ensures u.hashedPassword == hashedPassword && u.createdAt == createdAt
  {
    User(id, email, username, hashedPassword, isActive.GetOr(true), createdAt)
  }

  // ----- table constraints -----

  predicate UniqueUserIds(users: seq<User>) {
    forall i, j :: 0 <= i < j < |users| ==> users[i].id != users[j].id
  }

  predicate UniqueEmails(users: seq<User>) {
    forall i, j :: 0 <= i < j < |users| ==> users[i].email != users[j].email
  }

  predicate UniqueUsernames(users: seq<User>) {
    forall i, j :: 0 <= i < j < |users| ==> users[i].username != users[j].username
  }

  predicate UniqueItemIds(items: seq<Item>) {
    forall i, j :: 0 <= i < j < |items| ==> items[i].id != items[j].id
  }

  function UserIds(users: seq<User>): set<int> {
    set u | u in users :: u.id
  }

  /** The foreign key `item.owner_id -> user.id`. */
  predicate OwnersExist(s: Store) {
    forall it :: it in s.items ==> it.ownerId in UserIds(s.users)
  }

  /** Every stored key lies below the next key to be handed out. */
  predicate KeysFresh(s: Store) {
    && (forall u :: u in s.users ==> u.id < s.nextUserId)
    && (forall it :: it in s.items ==> it.id < s.nextItemId)
  }

  predicate Valid(s: Store) {
    && UniqueUserIds(s.users)
    && UniqueEmails(s.users)
    && UniqueUsernames(s.users)
    && UniqueItemIds(s.items)
    && OwnersExist(s)
    && KeysFresh(s)
  }

  /** A fresh database satisfies every table constraint, so each state the
      handlers reach from it is valid. */
  lemma EmptyStoreValid()
    ensures Valid(EmptyStore)
  {
  }

  // ----- queries -----

  /** `select(User).where(User.username == username).first()`. */
  function FindUserByUsername(users: seq<User>, username: string): (r: Option<User>)
    ensures r.Some? ==> r.value in users && r.value.username == username
    ensures r.None? ==> forall u :: u in users ==> u.username != username
  {
    if |users| == 0 then None
    else if users[0].username == username then Some(users[0])
    else FindUserByUsername(users[1..], username)
  }

  /** `select(User).where((User.email == email) | (User.username == username)).first()`. */
  function FindUserByEmailOrUsername(users: seq<User>, email: string, username: string): (r: Option<User>)
    ensures r.Some? ==> r.value in users && (r.value.email == email || r.value.username == username)
    ensures r.None? ==> forall u :: u in users ==> u.email != email && u.username != username
  {
    if |users| == 0 then None
    else if users[0].email == email || users[0].username == username then Some(users[0])
    else FindUserByEmailOrUsername(users[1..], email, username)
  }

  /** `session.get(Item, item_id)`: lookup by primary key. */
  function FindItem(items: seq<Item>, id: int): (r: Option<Item>)
    ensures r.Some? ==> r.value in items && r.value.id == id
    ensures r.None? ==> forall it :: it in items ==> it.id != id
  {
    if |items| == 0 then None
    else if items[0].id == id then Some(items[0])
    else FindItem(items[1..], id)
  }

  /** `select(Item).where(Item.owner_id == owner).all()`, in table order. */
  function ItemsOwnedBy(items: seq<Item>, owner: int): (r: seq<Item>)
    ensures forall it :: it in r <==> it in items && it.ownerId == owner
    ensures |r| <= |items|
  {
    if |items| == 0 then []
    else if items[0].ownerId == owner then [items[0]] + ItemsOwnedBy(items[1..], owner)
    else ItemsOwnedBy(items[1..], owner)
  }

  /** `session.delete(item)`: the table without the row keyed `id`. */
  function RemoveItem(items: seq<Item>, id: int): (r: seq<Item>)
    ensures forall it :: it in r <==> it in items && it.id != id
    ensures |r| <= |items|
  {
    if |items| == 0 then []
    else if items[0].id == id then RemoveItem(items[1..], id)
    else [items[0]] + RemoveItem(items[1..], id)
  }

  // ----- lemmas -----

  /** Under unique usernames the lookup returns THE user with that name. */
  lemma FindUniqueUsername(users: seq<User>, u: User)
    requires UniqueUsernames(users)
    requires u in users
    ensures FindUserByUsername(users, u.username) == Some(u)
  {
  }

  /** Removal keeps the items that are not keyed `id` in their order. */
  lemma {:induction false} RemoveAbsentItem(items: seq<Item>, id: int)
    requires forall it :: it in items ==> it.id != id
    ensures RemoveItem(items, id) == items
  {
    if |items| > 0 {
      assert items[0] in items;
      assert forall it :: it in items[1..] ==> it in items;
      RemoveAbsentItem(items[1..], id);
      assert [items[0]] + items[1..] == items;
    }
  }

  lemma UniqueItemIdsTail(items: seq<Item>)
    requires |items| > 0 && UniqueItemIds(items)
    ensures UniqueItemIds(items[1..])
    ensures forall it :: it in items[1..] ==> it.id != items[0].id
  {
  }

  /** Removing a row keeps the item keys unique. */
  lemma {:induction false} RemoveKeepsUniqueIds(items: seq<Item>, id: int)
    requires UniqueItemIds(items)
    ensures UniqueItemIds(RemoveItem(items, id))
  {
    if |items| > 0 {
      UniqueItemIdsTail(items);
      RemoveKeepsUniqueIds(items[1..], id);
      var rest := RemoveItem(items[1..], id);
      if items[0].id != id {
        var all := [items[0]] + rest;
        forall i, j | 0 <= i < j < |all|
          ensures all[i].id != all[j].id
        {
          if i == 0 {
            assert all[j] == rest[j - 1] && rest[j - 1] in rest;
          } else {
            assert all[i] == rest[i - 1] && all[j] == rest[j - 1];
          }
        }
      }
    }
  }

  /** With unique keys, removing a present key drops exactly one row. */
  lemma {:induction false} RemovePresentItem(items: seq<Item>, id: int)
    requires UniqueItemIds(items)
    requires FindItem(items, id).Some?
    ensures |RemoveItem(items, id)| == |items| - 1
  {
    UniqueItemIdsTail(items);
    if items[0].id == id {
      RemoveAbsentItem(items[1..], id);
    } else {
      RemovePresentItem(items[1..], id);
    }
  }

  /** Appending a row extends its owner's list at the end and leaves every
      other owner's list as it was. */
  lemma {:induction false} OwnedByAppend(items: seq<Item>, it: Item, owner: int)
    ensures ItemsOwnedBy(items + [it], owner)
         == ItemsOwnedBy(items, owner) + (if it.ownerId == owner then [it] else [])
  {
    if |items| > 0 {
      assert (items + [it])[1..] == items[1..] + [it];
      OwnedByAppend(items[1..], it, owner);
    }
  }

  /** Deleting a row and then filtering by owner is filtering and then
      deleting: each owner's list loses the deleted row and nothing else. */
  lemma {:induction false} OwnedByRemoveCommute(items: seq<Item>, id: int, owner: int)
    ensures ItemsOwnedBy(RemoveItem(items, id), owner) == RemoveItem(ItemsOwnedBy(items, owner), id)
  {
    if |items| > 0 {
      OwnedByRemoveCommute(items[1..], id, owner);
      if items[0].id != id {
        assert ([items[0]] + RemoveItem(items[1..], id))[1..] == RemoveItem(items[1..], id);
      }
      if items[0].ownerId == owner {
        assert ([items[0]] + ItemsOwnedBy(items[1..], owner))[1..] == ItemsOwnedBy(items[1..], owner);
      }
    }
  }
}

=== FILE: password_hash.dfy ===
/** The bcrypt password hasher, as an ideal symbolic hash.

    A digest is the term `Bcrypt(salt, secret)`: nothing in the model reads
    `secret` except `VerifyPassword`, which, like `bcrypt.checkpw`, re-hashes
    the candidate with the salt embedded in the digest and compares. The ideal
    hash is injective, so two different passwords never share a digest. */
module PasswordHash {

  /** The random salt `bcrypt.gensalt()` draws; a parameter of the model. */
  type Salt = nat

  datatype Digest = Bcrypt(salt: Salt, secret: string)

  /** `get_password_hash`: the digest of a password under a fresh salt. */
  function HashPassword(password: string, salt: Salt): (d: Digest)
    ensures d.salt == salt
    ensures forall candidate :: VerifyPassword(candidate, d) <==> candidate == password
  {
    Bcrypt(salt, password)
  }

  /** `verify_password`: re-hash with the digest's own salt and compare. */
  function VerifyPassword(password: string, digest: Digest): (ok: bool)
    ensures ok <==> digest.secret == password
  {
    Bcrypt(digest.salt, password) == digest
  }

  /** Hashing the same password under two salts gives two digests, and both
      still accept the password. */
  lemma SaltedDigestsDiffer(password: string, s1: Salt, s2: Salt)
    requires s1 != s2
    ensures HashPassword(password, s1) != HashPassword(password, s2)
    ensures VerifyPassword(password, HashPassword(password, s1))
    ensures VerifyPassword(password, HashPassword(password, s2))
  {
  }
}

=== FILE: routes_items.dfy ===
/** The item endpoints (backend/app/routes_items.py). Each first resolves the
    caller through `get_current_user`; its 401/403 ends the request before
    the item table is read. */
module RoutesItems {
  import opened Wrappers
  import opened Http
  import opened Config
  import opened Jwt
  import opened Models
  import opened AuthJwt

  const ItemNotFound := HttpError(StatusNotFound, "Item not found", false)
  const NotItemOwner := HttpError(StatusForbidden, "Not authorized to delete this item", false)

  /** The request body of `create_item`; `description` is optional. */
  datatype ItemCreate = ItemCreate(title: string, description: Option<string>)

  /** `list_items`: the caller's items, in table order. */
  function ListItems(settings: Settings, store: Store, token: Token, now: int): (r: Reply<Store, seq<Item>>)
    ensures r.state == store
    ensures CurrentUser(settings, store, token, now).Err? ==> r.result == Err(CurrentUser(settings, store, token, now).error)
    ensures CurrentUser(settings, store, token, now).Ok? ==> r.result.Ok?
    ensures CurrentUser(settings, store, token, now).Ok? ==>
              forall it :: it in r.result.value <==> it in store.items && it.ownerId == CurrentUser(settings, store, token, now).value.id
  {
    match CurrentUser(settings, store, token, now)
    case Err(e) => Reply(store, Err(e))
    case Ok(user) => Reply(store, Ok(ItemsOwnedBy(store.items, user.id)))
  }

  /** `create_item`: insert the body under the next key, owned by the caller
      whatever the body says. */
  function CreateItem(settings: Settings, store: Store, token: Token, now: int, input: ItemCreate): (r: Reply<Store, Item>)
    ensures CurrentUser(settings, store, token, now).Err? ==> r == Reply(store, Err(CurrentUser(settings, store, token, now).error))
    ensures CurrentUser(settings, store, token, now).Ok? ==> r.result.Ok?
    ensures r.result.Ok? ==> r.result.value.ownerId == CurrentUser(settings, store, token, now).value.id
    ensures r.result.Ok? ==> r.result.value.title == input.title && r.result.value.description == input.description
    ensures r.result.Ok? ==> r.state.items == store.items + [r.result.value] && r.state.users == store.users
    ensures r.result.Ok? && KeysFresh(store) ==> forall it :: it in store.items ==> it.id != r.result.value.id
  {
    match CurrentUser(settings, store, token, now)
    case Err(e) => Reply(store, Err(e))
    case Ok(user) =>
      var item := Item(store.nextItemId, input.title, input.description, user.id, now);
      Reply(store.(items := store.items + [item], nextItemId := store.nextItemId + 1), Ok(item))
  }

  /** `delete_item`: 404 for a missing key comes before the ownership 403;
      only the caller's own item is removed. */
  function DeleteItem(settings: Settings, store: Store, token: Token, now: int, itemId: int): (r: Reply<Store, ()>)
    ensures r.result.Err? ==> r.state == store
    ensures CurrentUser(settings, store, token, now).Err? ==> r.result == Err(CurrentUser(settings, store, token, now).error)
    ensures CurrentUser(settings, store, token, now).Ok? && (forall it :: it in store.items ==> it.id != itemId)
            ==> r.result == Err(ItemNotFound)
    ensures CurrentUser(settings, store, token, now).Ok? && FindItem(store.items, itemId).Some?
            ==> (r.result.Ok? <==> FindItem(store.items, itemId).value.ownerId == CurrentUser(settings, store, token, now).value.id)
    ensures CurrentUser(settings, store, token, now).Ok? && FindItem(store.items, itemId).Some?
            && FindItem(store.items, itemId).value.ownerId != CurrentUser(settings, store, token, now).value.id
            ==> r.result == Err(NotItemOwner)
    ensures r.result == Err(NotItemOwner) ==>
              exists it :: it in store.items && it.id == itemId && it.ownerId != CurrentUser(settings, store, token, now).value.id
    ensures r.result.Ok? ==> r.state.users == store.users
    ensures r.result.Ok? ==> forall it :: it in r.state.items <==> it in store.items && it.id != itemId
  {
    match CurrentUser(settings, store, token, now)
    case Err(e) => Reply(store, Err(e))
    case Ok(user) =>
      match FindItem(store.items, itemId)
      case None => Reply(store, Err(ItemNotFound))
      case Some(item) =>
        if item.ownerId != user.id then Reply(store, Err(NotItemOwner))
        else Reply(store.(items := RemoveItem(store.items, itemId)), Ok(()))
  }

  /** Creating an item keeps every table constraint: its key is new and its
      owner is the (existing) caller. */
  lemma CreateItemPreservesValid(settings: Settings, store: Store, token: Token, now: int, input: ItemCreate)
    requires Valid(store)
    ensures Valid(CreateItem(settings, store, token, now, input).state)
  {
  }

  /** Deleting keeps every table constraint, and a successful delete in a
      valid store drops exactly one row. */
  lemma DeleteItemPreservesValid(settings: Settings, store: Store, token: Token, now: int, itemId: int)
    requires Valid(store)
    ensures Valid(DeleteItem(settings, store, token, now, itemId).state)
    ensures DeleteItem(settings, store, token, now, itemId).result.Ok? ==>
              |DeleteItem(settings, store, token, now, itemId).state.items| == |store.items| - 1
  {
    var r := DeleteItem(settings, store, token, now, itemId);
    if r.result.Ok? {
      RemoveKeepsUniqueIds(store.items, itemId);
      RemovePresentItem(store.items, itemId);
    }
  }

  /** Each listing is the caller's own: no item of another user appears. */
  lemma ListingsAreDisjoint(settings: Settings, store: Store, a: Token, b: Token, now: int)
    requires CurrentUser(settings, store, a, now).Ok? && CurrentUser(settings, store, b, now).Ok?
    requires CurrentUser(settings, store, a, now).value.id != CurrentUser(settings, store, b, now).value.id
    ensures forall it :: it in ListItems(settings, store, a, now).result.value ==> it !in ListItems(settings, store, b, now).result.value
  {
  }

  /** After a successful create, the creator's listing is the previous one
      with the new item at the end, and every other caller's listing is
      unchanged. */
  lemma CreateThenList(settings: Settings, store: Store, token: Token, other: Token, now: int, input: ItemCreate)
    requires CurrentUser(settings, store, token, now).Ok?
    requires CurrentUser(settings, store, other, now).Ok?
    ensures var r := CreateItem(settings, store, token, now, input);
            ListItems(settings, r.state, other, now).result.value
            == ListItems(settings, store, other, now).result.value
               + (if CurrentUser(settings, store, other, now).value.id == CurrentUser(settings, store, token, now).value.id
                  then [r.result.value] else [])
  {
    var r := CreateItem(settings, store, token, now, input);
    assert CurrentUser(settings, r.state, other, now) == CurrentUser(settings, store, other, now);
    OwnedByAppend(store.items, r.result.value, CurrentUser(settings, store, other, now).value.id);
  }

  /** After a successful delete, every caller's listing is the previous one
      with the deleted item taken out, in the same order; in a valid store,
      other users' listings are unchanged. */
  lemma DeleteThenList(settings: Settings, store: Store, token: Token, other: Token, now: int, itemId: int)
    requires Valid(store)
    requires DeleteItem(settings, store, token, now, itemId).result.Ok?
    requires CurrentUser(settings, store, other, now).Ok?
    ensures var r := DeleteItem(settings, store, token, now, itemId);
            ListItems(settings, r.state, other, now).result.value
            == RemoveItem(ListItems(settings, store, other, now).result.value, itemId)
    ensures var r := DeleteItem(settings, store, token, now, itemId);
            CurrentUser(settings, store, other, now).value.id != CurrentUser(settings, store, token, now).value.id
            ==> ListItems(settings, r.state, other, now).result.value == ListItems(settings, store, other, now).result.value
  {
    var r := DeleteItem(settings, store, token, now, itemId);
    var o := CurrentUser(settings, store, other, now).value.id;
    assert CurrentUser(settings, r.state, other, now) == CurrentUser(settings, store, other, now);
    OwnedByRemoveCommute(store.items, itemId, o);
    if o != CurrentUser(settings, store, token, now).value.id {
      RemoveAbsentItem(ItemsOwnedBy(store.items, o), itemId);
    }
  }
}

=== FILE: scenario.dfy ===
/** A complete session against a fresh database, with the default settings. */
module Scenario {
  import opened Wrappers
  import opened Config
  import opened Models
  import opened AuthJwt
  import opened AuthRoutes

  function DemoSettings(): (s: Settings)
    ensures s.accessTokenExpireMinutes == 30 && s.jwtAlgorithm == "HS256" && s.logLevel == "info"
  {
    DefaultsKeepInfo("sqlite:///./battle.db", "change-me");
    Load(RequiredOnly("sqlite:///./battle.db", "change-me")).value
  }

  /** register(alice) succeeds; login(alice, secret1) gives a token that
      resolves to alice within its 30 minutes and is refused after them; login(alice, wrong) gets the
      401; register(bob) with alice's email gets the 400. */
  lemma AliceSession(salt: nat, t0: int)
    ensures var settings := DemoSettings();
            var reg := Register(EmptyStore, UserCreate("a@x.com", "alice", "secret1"), salt, t0);
            var login := Login(settings, reg.state, "alice", "secret1", t0);
            && reg.result.Ok?
            && login.result.Ok?
            && GetMe(settings, reg.state, login.result.value.accessToken, t0 + 29 * 60).result.Ok?
            && GetMe(settings, reg.state, login.result.value.accessToken, t0 + 29 * 60).result.value.username == "alice"
            && GetMe(settings, reg.state, login.result.value.accessToken, t0 + 31 * 60).result == Err(CredentialsException)
            && Login(settings, reg.state, "alice", "wrong", t0).result == Err(IncorrectCredentials)
            && Register(reg.state, UserCreate("a@x.com", "bob", "pw"), salt + 1, t0).result == Err(AlreadyRegistered)
  {
  }
}

=== FILE: wrappers.dfy ===
/** Optional values and results, used throughout the model. */
module Wrappers {

  /** An optional value: the model's stand-in for Python's `Optional[T]`. */
  datatype Option<+T> = None | Some(value: T) {
    function GetOr(default: T): T {
      match this
      case Some(v) => v
      case None => default
    }
  }

  /** Either a value or an error: the model's stand-in for a raised exception. */
  datatype Result<+T, +E> = Ok(value: T) | Err(error: E)
}
